=== FILE: README.md ===
# Binary search tree, modelled in Dafny

The repository is a small TypeScript binary search tree. A `Tree` holds a
`root` link to mutable `Node` records, and each record has a numeric `data`
key and `left`/`right` links. `Tree` does the following:

- builds a balanced tree from a slice of an array by splitting at the
  truncated midpoint (`buildTree`);
- inserts keys, sending smaller keys left and equal or larger keys right
  (`attachNode`, `insert`);
- deletes a key, replacing a node that has two children by the leftmost key
  of its right subtree (`delete`, `removeNode`, `inorderSuccessor`);
- searches along the key's search path (`find`);
- lists the keys breadth-first with a FIFO queue (`levelOrder`) and depth-first
  (`inorder`, `preorder`, `postorder`).

The model comes in two layers:

- **Values.** `TreeModel` describes every operation as a function on an
  immutable `BinTree` value. Each function follows the TypeScript code branch
  by branch.
- **Heap.** `Nodes.Node` and `Trees.Tree` are classes with the source's
  fields, and their methods update the fields in place the way the
  TypeScript does.
  - Each node carries two ghost fields: `Repr`, the nodes of its subtree, and
    `Model`, the `BinTree` the subtree denotes.
  - `Valid()` says the links form a finite tree whose subtrees share no node.
  - Every method is proved to compute the value-level function of the
    operation it models.

The properties are proved as lemmas about the value functions, in separate
modules:

- `SearchFacts`: search soundness and completeness.
- `InsertFacts`: keys, order and search after an insert.
- `DeleteFacts`: keys, size and order after a delete.
- `TraversalFacts`: what the three depth-first orders contain, and sortedness.
- `LevelOrderFacts`: the breadth-first output, level by level.
- `BuildFacts`: the round trip, balance, height and order of built trees.
- `DriverExample`: the demonstration script at the end of `src/Tree.ts`.

How the code's behaviour is modelled:

- **Key type.** Keys are mathematical integers, and `===` on keys is `==`.
- **Search order.** Because equal keys go right, the order is `Bst`. Every key
  in a node's left subtree is smaller than the node's key. Every key in its
  right subtree is at least as large. A sorted array with repeated keys is
  built into the weaker order `WeakBst`, where left keys may also equal the
  node's key; `find`, `insert` and `delete` work under it too.
- **Errors.** Thrown errors are modelled as results:
  - `find` failing to find the key returns `Err(ItemNotFound)`.
  - A traversal given a null root returns `Err(InvalidRoot)`.
- **The `root` field.**
  - `buildTree` assigns `root` at every level of its recursion. The outermost
    call's node is the last one stored. An empty range returns before
    storing anything.
  - `delete` never assigns `root` (see Findings).

## Model

| member | source | states |
|---|---|---|
| Nodes.Node.constructor | src/Node.ts:6-12 | The fields hold the arguments, and the children default to null. With valid, disjoint children, the new node roots a valid subtree whose value is `Branch(left, data, right)`. |
| Nodes.ChildrenModels | src/Tree.ts:103-104 | The present children a node enqueues, left first, denote the value-level `Kids` of the node's subtree. |
| Nodes.Dequeue | src/Tree.ts:101-106 | One loop turn of `levelOrder` emits the head's key. Every queued node stays valid. The number of nodes left to visit strictly decreases. |
| Trees.Tree.constructor | src/Tree.ts:3-4 | A new tree has a null root and is empty. |
| Trees.Tree.BuildTree | src/Tree.ts:6-20 | An empty range returns null and leaves `root` alone. Otherwise the result is a fresh valid subtree denoting `Build(a, start, end)`, and `root` is set to it. |
| Trees.Tree.AttachNode | src/Tree.ts:22-38 | On a null subtree a fresh node becomes `root`. Otherwise the subtree now denotes `Insert(key, old value)`, with exactly one fresh leaf added. No existing key changes. |
| Trees.Tree.Insert | src/Tree.ts:40-42 | The tree denotes `Insert(key, old)`, and the root node is replaced only when the tree was empty. The key multiset gains exactly one `key`. Search order is preserved. |
| Trees.Tree.InorderSuccessor | src/Tree.ts:58-67 | Returns a node of the subtree that has no left child and holds the subtree's leftmost key. |
| Trees.Tree.RemoveNode | src/Tree.ts:44-56 | The result denotes `RemoveRoot(old value)`. With two children it is the same node. Otherwise it is the left child if there is one, else the right child, and no node was written. |
| Trees.Tree.Delete | src/Tree.ts:69-81 | The result denotes `Delete(key, old value)`. It is `r` itself unless `r` is the spliced-out node, and in that case nothing was written. |
| Trees.Tree.DeleteFromRoot | src/Tree.ts:69-81 | As written: `delete(key)` with the default argument. `root` is unchanged. The tree keeps its old value when the root node is spliced out. On a search tree the returned subtree is a search tree, and under the weaker order it keeps the weaker order. In both cases it holds one copy of `key` fewer. |
| Trees.Tree.DeleteKey | src/Tree.ts:69-81 | Corrected: the returned subtree is stored in `root`, so the tree denotes `Delete(key, old)`. It keeps the search order, or the weaker order, whichever the tree had, and loses exactly one copy of `key`. |
| Trees.DeleteLoneRoot | src/Tree.ts:69-81 | On the tree holding only 5, `delete(5)` returns null and the tree still holds 5. |
| Trees.DeleteKeyLoneRoot | src/Tree.ts:69-81 | On the tree holding only 5, the corrected delete leaves the tree empty. |
| Trees.Tree.Find | src/Tree.ts:83-90 | Succeeds exactly when `Search` does; otherwise `Err(ItemNotFound)`. The node returned is the first one on the search path holding `key`: a valid node of the subtree whose value is `Found(key, r)`. On a search tree it succeeds exactly when `key` is stored. |
| Trees.Tree.LevelOrder | src/Tree.ts:92-109 | A null root gives `Err(InvalidRoot)`. Otherwise the queue loop returns `LevelOrder` of the tree. |
| Trees.Tree.InorderTraverse | src/Tree.ts:116-122 | Appends the subtree's in-order keys to `arr`. |
| Trees.Tree.Inorder | src/Tree.ts:111-126 | A null root gives `Err(InvalidRoot)`. Otherwise the result is `Inorder` of the tree. |
| Trees.Tree.PreorderTraverse | src/Tree.ts:133-139 | Appends the subtree's pre-order keys to `arr`. |
| Trees.Tree.Preorder | src/Tree.ts:128-143 | A null root gives `Err(InvalidRoot)`. Otherwise the result is `Preorder` of the tree. |
| Trees.Tree.PostorderTraverse | src/Tree.ts:150-156 | Appends the subtree's post-order keys to `arr`. |
| Trees.Tree.Postorder | src/Tree.ts:145-160 | A null root gives `Err(InvalidRoot)`. Otherwise the result is `Postorder` of the tree. |
| TreeModel.KeysCount | src/Node.ts:6-12 | Each node contributes exactly one key. |
| TreeModel.KidsSize | src/Tree.ts:103-104 | A node's enqueued children hold all the nodes below it. |
| TreeModel.ForestSizeAppend | src/Tree.ts:103-104 | Appending to the queue adds the sizes of the queued subtrees. |
| TreeModel.BfsStep | src/Tree.ts:101-106 | One loop turn: the head's key, then the loop on the rest with the head's children appended. The queue's node count strictly decreases. |
| SearchFacts.SearchSound | src/Tree.ts:83-90 | Whatever the order of the keys, a successful `find` has found a stored key. |
| SearchFacts.SearchComplete | src/Tree.ts:83-90 | In a search tree, every stored key is found. |
| SearchFacts.WeakComplete | src/Tree.ts:83-90 | Under the weaker order, where left keys are at most the node's key and right keys at least, every stored key is found. `find` stops at the first equal key and goes right only for a larger key. |
| SearchFacts.BstIsWeak | src/Tree.ts:22-38 | Every search tree also has the weaker order. |
| SearchFacts.FoundIsSearch | src/Tree.ts:83-90 | `find` returns a node exactly when the search succeeds. That node holds the key, its subtree is no larger than the tree, and a root holding the key is returned itself. |
| SearchFacts.SearchCorrect | src/Tree.ts:83-90 | In a search tree, `find` succeeds if and only if the key is stored. |
| InsertFacts.InsertKeys | src/Tree.ts:22-38 | Insertion adds exactly one copy of the key and one node. |
| InsertFacts.InsertBst | src/Tree.ts:25-37 | Insertion keeps the search order: smaller keys go left, equal and larger keys go right. |
| InsertFacts.InsertWeak | src/Tree.ts:25-37 | Insertion also keeps the weaker order. |
| InsertFacts.InsertThenSearch | src/Tree.ts:22-38 | After `insert(k)`, `find(k)` succeeds, whatever the order of the keys. |
| InsertFacts.InsertKeepsSearch | src/Tree.ts:22-38 | Insertion only fills an empty slot, so every search that succeeded before still succeeds. |
| DeleteFacts.LeftmostKeyIsMin | src/Tree.ts:58-67 | The leftmost key is stored in the tree. Under the weaker order, and so in every search tree, it is the minimum. |
| DeleteFacts.DeleteAbsent | src/Tree.ts:69-81 | A key that `find` does not find is not deleted: the tree is unchanged. |
| DeleteFacts.DeleteSize | src/Tree.ts:69-81 | Whatever the order of the keys, `delete` removes at most one node. |
| DeleteFacts.RemoveRootSize | src/Tree.ts:44-56 | Removing a node removes at most one node, whatever the order of the keys. |
| DeleteFacts.DeleteKeys | src/Tree.ts:69-81 | Under the weaker order, and so in every search tree, `delete(k)` removes exactly one copy of `k`, or nothing if `k` is absent. |
| DeleteFacts.RemoveRootKeys | src/Tree.ts:44-56 | Under the weaker order, `removeNode` drops exactly the node's own key. This includes the two-children case, where the node takes its successor's key. |
| DeleteFacts.DeleteBst | src/Tree.ts:69-81 | Deletion keeps the search order. |
| DeleteFacts.RemoveRootBst | src/Tree.ts:44-56 | Replacing a node by its in-order successor keeps the search order. |
| DeleteFacts.DeleteWeak | src/Tree.ts:69-81 | Deletion keeps the weaker order that a sorted array with repeated keys is built into. |
| DeleteFacts.RemoveRootWeak | src/Tree.ts:44-56 | Replacing a node by its in-order successor keeps the weaker order. The successor key is at least the old key. |
| DeleteFacts.DeleteChanges | src/Tree.ts:69-81 | Under the weaker order, and so in every search tree, `delete(k)` changes the tree if and only if `k` is stored. |
| DeleteFacts.DeleteThenSearch | src/Tree.ts:69-90 | Under the weaker order, and so in every search tree, after `delete(k)` the key is still found if and only if it was stored more than once. |
| DeleteFacts.DeleteWithoutOrder | src/Tree.ts:44-56 | Without the search order, `delete` can duplicate a key: the successor's copy is not found in the right subtree, so it survives there while also moving up. |
| TraversalFacts.InorderKeys | src/Tree.ts:111-126 | `inorder` lists every node's key exactly once, so its length is the number of nodes. |
| TraversalFacts.PreorderKeys | src/Tree.ts:128-143 | `preorder` lists every node's key exactly once. |
| TraversalFacts.PostorderKeys | src/Tree.ts:145-160 | `postorder` lists every node's key exactly once. |
| TraversalFacts.RootFirstAndLast | src/Tree.ts:133-156 | `preorder` starts with the root's key, and `postorder` ends with it. |
| TraversalFacts.InorderStartsLeftmost | src/Tree.ts:58-67 | `inorder` starts at the key `inorderSuccessor` walks to. |
| TraversalFacts.BstInorderSorted | src/Tree.ts:111-126 | In a search tree, `inorder` is non-decreasing. |
| TraversalFacts.NonDecreasingInorderWeak | src/Tree.ts:111-126 | A tree whose `inorder` does not decrease has the weaker order. |
| TraversalFacts.IncreasingInorderBst | src/Tree.ts:111-126 | A tree whose `inorder` strictly increases is a search tree. |
| LevelOrderFacts.KidsKeys | src/Tree.ts:103-104 | A node's enqueued children hold exactly the keys of its two subtrees. |
| LevelOrderFacts.BfsKeys | src/Tree.ts:98-106 | The queue loop emits each key of the queued subtrees exactly once. |
| LevelOrderFacts.LevelOrderKeys | src/Tree.ts:92-109 | `levelOrder` lists every node's key exactly once. |
| LevelOrderFacts.BfsCons | src/Tree.ts:101-106 | One loop turn on a queue `[x] + q`, for an empty or non-empty `x`. |
| LevelOrderFacts.BfsSplit | src/Tree.ts:101-106 | Running the loop on `a + b` first emits the roots of `a`, while their children queue up behind `b`. |
| LevelOrderFacts.KidsOfSize | src/Tree.ts:101-106 | One pass over the queue emits one key per node. The nodes not yet emitted are all in the enqueued children. |
| LevelOrderFacts.KidsLevel | src/Tree.ts:103-104 | Depth d below a node's enqueued children is depth d+1 below the node. |
| LevelOrderFacts.KidsOfLevels | src/Tree.ts:101-106 | The children of a whole queue carry its levels shifted up by one. |
| LevelOrderFacts.BfsByLevels | src/Tree.ts:98-106 | The queue loop emits the queue's depths one after another. |
| LevelOrderFacts.LevelOrderByLevels | src/Tree.ts:92-109 | `levelOrder` lists depth 0, then depth 1, and so on, each depth left to right. |
| LevelOrderFacts.LevelOrderStartsAtRoot | src/Tree.ts:98-105 | `levelOrder` starts with the root's key. |
| BuildFacts.BuildEmpty | src/Tree.ts:11-14 | `buildTree` returns null exactly when `start > end`. Otherwise the root key is `array[trunc((start+end)/2)]`. |
| BuildFacts.BuildInorder | src/Tree.ts:6-20 | Round trip: `inorder` of the built tree is exactly the slice `array[start..end]`. |
| BuildFacts.BuildKeys | src/Tree.ts:6-20 | The built tree holds the slice's keys, one node per element. |
| BuildFacts.BuildSize | src/Tree.ts:6-20 | The built tree has `end - start + 1` nodes. |
| BuildFacts.BuildSizeBalanced | src/Tree.ts:13-17 | At every node the right subtree has as many nodes as the left, or one more. |
| BuildFacts.SizeBelowPow2Height | src/Tree.ts:6-20 | A tree of height h has fewer than 2^h nodes. |
| BuildFacts.BuildHeight | src/Tree.ts:13-17 | The built tree has the least possible height for n nodes: n < 2^h, and 2^(h-1) <= n. |
| BuildFacts.BuildBst | src/Tree.ts:6-20 | A strictly increasing slice is built into a search tree. |
| BuildFacts.BuildWeak | src/Tree.ts:6-20 | A sorted slice, possibly with repeated keys, is built into the weaker order. `find` then succeeds exactly for the keys of the slice. |
| BuildFacts.BuildDuplicatesNotBst | src/Tree.ts:6-20 | Repeated keys break the ties-right order that `insert` keeps: `[1, 1, 1]` puts a 1 to the left of a 1, where `insert` would never put it. |
| DriverExample.OneToFiveShape | src/Tree.ts:204-207 | `buildTree([1..5], 0, 4)` roots 3, with 1 and 4 below it and 2 and 5 as leaves. |
| DriverExample.OneToFiveDepthFirst | src/Tree.ts:211-213 | The script's traversals give in-order [1,2,3,4,5], pre-order [3,1,2,4,5] and post-order [2,1,5,4,3]. |
| DriverExample.OneToFiveLevelOrder | src/Tree.ts:92-109 | `levelOrder` of that tree is [3,1,4,2,5]. |

## Left out

- The callback mode of `levelOrder`, `inorder`, `preorder` and `postorder` is
  not modelled. Only the key-collecting mode is. A callback is arbitrary
  JavaScript.
- `prettyPrint` and `treePrint` (src/Tree.ts:162-199) only write to the console.
- The demonstration script at src/Tree.ts:204-213 prints its results. Its tree
  and the key sequences it prints are stated as lemmas in `DriverExample`
  instead.
- Keys are integers, not JavaScript numbers (floating point, NaN, -0). The
  error messages are not modelled; only the error kind is.
- The two `InvalidNode` throws in `removeNode` and `inorderSuccessor` are not
  modelled. `delete` only ever calls them with a node, so those methods take
  a non-null `Node` instead.
- Trees.Tree.BuildTree: requires the index range to lie inside the array. The
  source would read `undefined` there, which is not a number.
- Trees.Tree.AttachNode: the node it creates is returned as a ghost value.
  `attachNode` returns it only when it becomes the root, and `insert`
  discards it.
- Trees.Tree.Find: default arguments are modelled by an explicit `r`. Pass
  `root` for `find(key)`. `delete(key)` is `DeleteFromRoot`.
- `Valid()` only says that `Repr` covers the subtree. It does not say that
  `Repr` is exact, although every method keeps it exact.

## Findings

| source | as written | input that shows it | evidently intended | confidence | as-written member | corrected member |
|---|---|---|---|---|---|---|
| src/Tree.ts:69-81 | `delete(key)` returns the new subtree but never stores it in `this.root`. When the root node is spliced out (the root holds `key` and has at most one child), the tree is unchanged. | `insert(5)` on an empty tree, then `delete(5)`: returns null and the tree still holds 5. | The subtree returned for the root becomes the tree's root. | not executed | Trees.DeleteLoneRoot | Trees.Tree.DeleteKey |

`Trees.Tree.DeleteFromRoot` models the call as written for every input, and
`Trees.DeleteKeyLoneRoot` runs the same input through the corrected
`DeleteKey`.

`buildTree` on a sorted array with repeated keys can put a key equal to a
node's key in its left subtree (`BuildFacts.BuildDuplicatesNotBst`), where
`insert` would never put it. The result still has the weaker order, left keys
at most and right keys at least the node's key (`BuildFacts.BuildWeak`).
Under that order `find` succeeds exactly for the stored keys
(`SearchFacts.WeakComplete`), and `insert` keeps it (`InsertFacts.InsertWeak`).
`delete` also keeps it, and removes exactly one copy of the key
(`DeleteFacts.DeleteWeak`, `DeleteFacts.DeleteKeys`,
`Trees.Tree.DeleteFromRoot`). So this is behaviour, not a defect.

=== FILE: build_facts.dfy ===
/**
 * What `buildTree` builds from a slice a[s..e] (inclusive bounds): a tree
 * whose in-order keys are the slice, whose sibling subtrees differ in size
 * by at most one, whose height is the least any tree of that many nodes can
 * have, and which is a search tree when the slice strictly increases.
 */
module BuildFacts {
  import opened TreeModel
  import opened TraversalFacts
  import opened SearchFacts

  /** Number of nodes on the longest path down from the root. */
  function Height(t: BinTree): nat
  {
    match t
    case Empty => 0
    case Branch(l, _, r) => 1 + (if Height(l) < Height(r) then Height(r) else Height(l))
  }

  function Pow2(n: nat): nat
  {
    if n == 0 then 1 else 2 * Pow2(n - 1)
  }

  /**
   * At every node the right subtree holds as many nodes as the left one, or
   * one more: the truncated midpoint leaves the extra element to the right.
   */
  predicate SizeBalanced(t: BinTree)
  {
    match t
    case Empty => true
    case Branch(l, _, r) =>
      && SizeBalanced(l) && SizeBalanced(r)
      && Size(l) <= Size(r) <= Size(l) + 1
  }

  /** `buildTree` returns null exactly when the range is empty. */
  lemma BuildEmpty(a: seq<int>, s: int, e: int)
    requires s <= e ==> 0 <= s && e < |a|
    ensures Build(a, s, e) == Empty <==> s > e
    ensures s <= e ==> Build(a, s, e).key == a[(s + e) / 2]
  {
  }

  /** Round trip: the in-order keys of the built tree are the slice itself. */
  lemma {:induction false} BuildInorder(a: seq<int>, s: int, e: int)
    requires 0 <= s <= e + 1 <= |a|
    ensures Inorder(Build(a, s, e)) == a[s..e + 1]
    decreases e - s
  {
    if s <= e {
      var mid := (s + e) / 2;
      BuildInorder(a, s, mid - 1);
      BuildInorder(a, mid + 1, e);
      assert a[s..e + 1] == a[s..mid] + [a[mid]] + a[mid + 1..e + 1];
    }
  }

  /** The built tree holds the slice's keys, one node per element. */
  lemma BuildKeys(a: seq<int>, s: int, e: int)
    requires 0 <= s <= e + 1 <= |a|
    ensures Keys(Build(a, s, e)) == multiset(a[s..e + 1])
    ensures Size(Build(a, s, e)) == e - s + 1
  {
    BuildInorder(a, s, e);
    InorderKeys(Build(a, s, e));
  }

  /** The truncated midpoint splits the range with the extra element on the right. */
  lemma Midpoint(s: int, e: int)
    requires 0 <= s <= e
    ensures s <= (s + e) / 2 <= e
    ensures (s + e) / 2 - s <= e - (s + e) / 2 <= (s + e) / 2 - s + 1
  {
  }

  lemma {:induction false} BuildSize(a: seq<int>, s: int, e: int)
    requires 0 <= s <= e + 1 <= |a|
    ensures Size(Build(a, s, e)) == e - s + 1
    decreases e - s
  {
    if s <= e {
      var mid := (s + e) / 2;
      Midpoint(s, e);
      BuildSize(a, s, mid - 1);
      BuildSize(a, mid + 1, e);
    }
  }


  /** Sibling subtree sizes differ by at most one, the extra node on the right. */
  lemma {:induction false} BuildSizeBalanced(a: seq<int>, s: int, e: int)
    requires 0 <= s <= e + 1 <= |a|
    ensures SizeBalanced(Build(a, s, e))
    decreases e - s
  {
    if s <= e {
      var mid := (s + e) / 2;
      Midpoint(s, e);
      assert Build(a, s, e) == Branch(Build(a, s, mid - 1), a[mid], Build(a, mid + 1, e));
      BuildSizeBalanced(a, s, mid - 1);
      BuildSizeBalanced(a, mid + 1, e);
      BuildSize(a, s, mid - 1);
      BuildSize(a, mid + 1, e);
    }
  }

  lemma {:induction false} Pow2Monotone(m: nat, n: nat)
    requires m <= n
    ensures Pow2(m) <= Pow2(n)
    decreases n
  {
    if m < n {
      Pow2Monotone(m, n - 1);
    }
  }

  /** No tree of height h holds 2^h nodes or more. */
  lemma {:induction false} SizeBelowPow2Height(t: BinTree)
    ensures Size(t) < Pow2(Height(t))
  {
    match t
    case Empty =>
    case Branch(l, _, r) =>
      SizeBelowPow2Height(l);
      SizeBelowPow2Height(r);
      Pow2Monotone(Height(l), Height(t) - 1);
      Pow2Monotone(Height(r), Height(t) - 1);
  }

  /**
   * The height bound survives joining two subtrees whose sizes differ by at
   * most one, the larger on the right.
   */
  lemma HeightStep(nl: nat, nr: nat, hl: nat, hr: nat)
    requires nl <= nr <= nl + 1
    requires nl < Pow2(hl) && (hl > 0 ==> Pow2(hl - 1) <= nl)
    requires nr < Pow2(hr) && (hr > 0 ==> Pow2(hr - 1) <= nr)
    ensures var h := 1 + (if hl < hr then hr else hl);
      nl + 1 + nr < Pow2(h) && Pow2(h - 1) <= nl + 1 + nr
  {
    var h := 1 + (if hl < hr then hr else hl);
    Pow2Monotone(hl, h - 1);
    Pow2Monotone(hr, h - 1);
    if hl < hr {
      Pow2Monotone(hl, hr - 1);
    } else if hl > 0 {
      assert Pow2(hl) == 2 * Pow2(hl - 1);
    }
  }

  /**
   * The built tree has the least height a tree of n = e-s+1 nodes can have:
   * n < 2^h, and 2^(h-1) <= n when the tree is not empty; that is,
   * h is the ceiling of log2(n + 1).
   */
  lemma {:induction false} BuildHeight(a: seq<int>, s: int, e: int)
    requires 0 <= s <= e + 1 <= |a|
    ensures e - s + 1 < Pow2(Height(Build(a, s, e)))
    ensures Height(Build(a, s, e)) > 0 ==> Pow2(Height(Build(a, s, e)) - 1) <= e - s + 1
    decreases e - s
  {
    if s <= e {
      var mid := (s + e) / 2;
      Midpoint(s, e);
      var l, r := Build(a, s, mid - 1), Build(a, mid + 1, e);
      assert Build(a, s, e) == Branch(l, a[mid], r);
      BuildHeight(a, s, mid - 1);
      BuildHeight(a, mid + 1, e);
      HeightStep(mid - s, e - mid, Height(l), Height(r));
    }
  }

  /** A strictly increasing slice is built into a search tree. */
  lemma BuildBst(a: seq<int>, s: int, e: int)
    requires 0 <= s <= e + 1 <= |a|
    requires StrictlyIncreasing(a[s..e + 1])
    ensures Bst(Build(a, s, e))
  {
    BuildInorder(a, s, e);
    IncreasingInorderBst(Build(a, s, e));
  }

  /**
   * A sorted slice with repeated keys is built into the weaker order, in
   * which `find` still succeeds exactly for the keys of the slice.
   */
  lemma BuildWeak(a: seq<int>, s: int, e: int)
    requires 0 <= s <= e + 1 <= |a|
    requires NonDecreasing(a[s..e + 1])
    ensures WeakBst(Build(a, s, e))
    ensures forall k :: Search(k, Build(a, s, e)) <==> k in a[s..e + 1]
  {
    var t := Build(a, s, e);
    BuildInorder(a, s, e);
    NonDecreasingInorderWeak(t);
    BuildKeys(a, s, e);
    forall k ensures Search(k, t) <==> k in a[s..e + 1] {
      assert k in a[s..e + 1] <==> k in multiset(a[s..e + 1]);
      if Search(k, t) {
        SearchSound(k, t);
      }
      if k in Keys(t) {
        WeakComplete(k, t);
      }
    }
  }

  /**
   * Repeated keys break the ties-right search order: from [1, 1, 1] the
   * middle 1 gets another 1 as its left child, where `insert` would never
   * put it. The weaker order holds (`BuildWeak`), so `find` is unaffected.
   */
  lemma BuildDuplicatesNotBst()
    ensures Build([1, 1, 1], 0, 2) == Branch(Branch(Empty, 1, Empty), 1, Branch(Empty, 1, Empty))
    ensures !Bst(Build([1, 1, 1], 0, 2))
  {
    var a := [1, 1, 1];
    assert Build(a, 0, 0) == Branch(Empty, 1, Empty);
    assert Build(a, 2, 2) == Branch(Empty, 1, Empty);
    assert 1 in Keys(Branch(Empty, 1, Empty));
  }
}

=== FILE: delete_facts.dfy ===
/**
 * Deletion removes at most one node whatever the order of the keys. In a
 * search tree, and already under the weaker order a sorted array with
 * repeated keys is built into, it removes exactly one copy of a stored key
 * and keeps the order, because the in-order successor `inorderSuccessor`
 * finds is the smallest key of the right subtree.
 */
module DeleteFacts {
  import opened TreeModel
  import opened SearchFacts

  /**
   * The leftmost key is stored in the tree and, under the weaker order (so
   * in every search tree), is its minimum.
   */
  lemma {:induction false} LeftmostKeyIsMin(t: BinTree)
    requires t.Branch?
    ensures LeftmostKey(t) in Keys(t)
    ensures WeakBst(t) ==> forall x | x in Keys(t) :: LeftmostKey(t) <= x
  {
    if t.left != Empty {
      LeftmostKeyIsMin(t.left);
    }
  }

  /** A key not on its search path leaves the tree as it was. */
  lemma {:induction false} DeleteAbsent(k: int, t: BinTree)
    requires !Search(k, t)
    ensures Delete(k, t) == t
  {
    match t
    case Empty =>
    case Branch(l, d, r) =>
      if k > d {
        DeleteAbsent(k, r);
      } else {
        DeleteAbsent(k, l);
      }
  }

  /** Whatever the order of the keys, a deletion removes at most one node. */
  lemma {:induction false} DeleteSize(k: int, t: BinTree)
    ensures Size(t) - 1 <= Size(Delete(k, t)) <= Size(t)
    decreases t, 1
  {
    match t
    case Empty =>
    case Branch(l, d, r) =>
      if d == k {
        RemoveRootSize(t);
      } else if k > d {
        DeleteSize(k, r);
      } else {
        DeleteSize(k, l);
      }
  }

  lemma {:induction false} RemoveRootSize(t: BinTree)
    requires t.Branch?
    ensures Size(t) - 1 <= Size(RemoveRoot(t)) <= Size(t)
    decreases t, 0
  {
    if t.left != Empty && t.right != Empty {
      DeleteSize(LeftmostKey(t.right), t.right);
    }
  }

  /** Taking k out of a node's keys takes it out of the right part when only that part can hold it. */
  lemma DropFromRight(a: multiset<int>, d: int, b: multiset<int>, b': multiset<int>, k: int)
    requires k !in a && k != d && b' == b - multiset{k}
    ensures a + multiset{d} + b' == (a + multiset{d} + b) - multiset{k}
  {
    assert forall x :: (a + multiset{d} + b')[x] == ((a + multiset{d} + b) - multiset{k})[x];
  }

  /** Taking k out of a node's keys takes it out of the left part when only that part can hold it. */
  lemma DropFromLeft(a: multiset<int>, a': multiset<int>, d: int, b: multiset<int>, k: int)
    requires k !in b && k != d && a' == a - multiset{k}
    ensures a' + multiset{d} + b == (a + multiset{d} + b) - multiset{k}
  {
    assert forall x :: (a' + multiset{d} + b)[x] == ((a + multiset{d} + b) - multiset{k})[x];
  }

  /** Replacing a node's key d by a key m moved up out of its right part drops d. */
  lemma ReplaceRootKey(a: multiset<int>, d: int, b: multiset<int>, b': multiset<int>, m: int)
    requires m in b && b' == b - multiset{m}
    ensures a + multiset{m} + b' == (a + multiset{d} + b) - multiset{d}
  {
    assert forall x :: (a + multiset{m} + b')[x] == ((a + multiset{d} + b) - multiset{d})[x];
  }

  /**
   * Under the weaker order (so in every search tree), deletion removes
   * exactly one copy of k from the key multiset, and none when k is absent.
   */
  lemma {:induction false} DeleteKeys(k: int, t: BinTree)
    requires WeakBst(t)
    ensures Keys(Delete(k, t)) == Keys(t) - multiset{k}
    decreases t, 1
  {
    match t
    case Empty =>
    case Branch(l, d, r) =>
      if d == k {
        RemoveRootKeys(t);
      } else if k > d {
        DeleteKeys(k, r);
        assert Delete(k, t) == Branch(l, d, Delete(k, r));
        DropFromRight(Keys(l), d, Keys(r), Keys(Delete(k, r)), k);
      } else {
        DeleteKeys(k, l);
        assert Delete(k, t) == Branch(Delete(k, l), d, r);
        DropFromLeft(Keys(l), Keys(Delete(k, l)), d, Keys(r), k);
      }
  }

  /** Removing the root of a tree in the weaker order drops exactly its key. */
  lemma {:induction false} RemoveRootKeys(t: BinTree)
    requires t.Branch? && WeakBst(t)
    ensures Keys(RemoveRoot(t)) == Keys(t) - multiset{t.key}
    decreases t, 0
  {
    var l, d, r := t.left, t.key, t.right;
    if l != Empty && r != Empty {
      var m := LeftmostKey(r);
      LeftmostKeyIsMin(r);
      DeleteKeys(m, r);
      assert RemoveRoot(t) == Branch(l, m, Delete(m, r));
      ReplaceRootKey(Keys(l), d, Keys(r), Keys(Delete(m, r)), m);
    }
  }

  /** Removing a copy of some key keeps every remaining key below a bound. */
  lemma DropKeepsBelow(b: multiset<int>, k: int, d: int)
    requires forall x | x in b :: x < d
    ensures forall x | x in b - multiset{k} :: x < d
  {
    forall x | x in b - multiset{k} ensures x < d {
      assert x in b;
    }
  }

  /** Removing a copy of some key keeps every remaining key at or below a bound. */
  lemma DropKeepsAtMost(b: multiset<int>, k: int, d: int)
    requires forall x | x in b :: x <= d
    ensures forall x | x in b - multiset{k} :: x <= d
  {
    forall x | x in b - multiset{k} ensures x <= d {
      assert x in b;
    }
  }

  /** Removing a copy of some key keeps every remaining key at or above a bound. */
  lemma DropKeepsAbove(b: multiset<int>, k: int, d: int)
    requires forall x | x in b :: d <= x
    ensures forall x | x in b - multiset{k} :: d <= x
  {
    forall x | x in b - multiset{k} ensures d <= x {
      assert x in b;
    }
  }

  /** Deletion keeps the search order. */
  lemma {:induction false} DeleteBst(k: int, t: BinTree)
    requires Bst(t)
    ensures Bst(Delete(k, t))
    decreases t, 1
  {
    match t
    case Empty =>
    case Branch(l, d, r) =>
      if d == k {
        RemoveRootBst(t);
      } else if k > d {
        DeleteBst(k, r);
        BstIsWeak(r);
        DeleteKeys(k, r);
        assert Delete(k, t) == Branch(l, d, Delete(k, r));
        DropKeepsAbove(Keys(r), k, d);
      } else {
        DeleteBst(k, l);
        BstIsWeak(l);
        DeleteKeys(k, l);
        assert Delete(k, t) == Branch(Delete(k, l), d, r);
        DropKeepsBelow(Keys(l), k, d);
      }
  }

  /** Removing the root keeps the search order: the successor key fits there. */
  lemma {:induction false} RemoveRootBst(t: BinTree)
    requires t.Branch? && Bst(t)
    ensures Bst(RemoveRoot(t))
    decreases t, 0
  {
    var l, d, r := t.left, t.key, t.right;
    if l != Empty && r != Empty {
      var m := LeftmostKey(r);
      BstIsWeak(r);
      LeftmostKeyIsMin(r);
      DeleteBst(m, r);
      DeleteKeys(m, r);
      assert RemoveRoot(t) == Branch(l, m, Delete(m, r));
      forall x | x in Keys(l) ensures x < m {
        assert x < d;
      }
      DropKeepsAbove(Keys(r), m, m);
    }
  }

  /** Deletion keeps the weaker order a sorted array with repeated keys is built into. */
  lemma {:induction false} DeleteWeak(k: int, t: BinTree)
    requires WeakBst(t)
    ensures WeakBst(Delete(k, t))
    decreases t, 1
  {
    match t
    case Empty =>
    case Branch(l, d, r) =>
      if d == k {
        RemoveRootWeak(t);
      } else if k > d {
        DeleteWeak(k, r);
        DeleteKeys(k, r);
        assert Delete(k, t) == Branch(l, d, Delete(k, r));
        DropKeepsAbove(Keys(r), k, d);
      } else {
        DeleteWeak(k, l);
        DeleteKeys(k, l);
        assert Delete(k, t) == Branch(Delete(k, l), d, r);
        DropKeepsAtMost(Keys(l), k, d);
      }
  }

  /** Removing the root keeps the weaker order: the successor key is at least the old root key. */
  lemma {:induction false} RemoveRootWeak(t: BinTree)
    requires t.Branch? && WeakBst(t)
    ensures WeakBst(RemoveRoot(t))
    decreases t, 0
  {
    var l, d, r := t.left, t.key, t.right;
    if l != Empty && r != Empty {
      var m := LeftmostKey(r);
      LeftmostKeyIsMin(r);
      DeleteWeak(m, r);
      DeleteKeys(m, r);
      assert RemoveRoot(t) == Branch(l, m, Delete(m, r));
      assert d <= m;
      forall x | x in Keys(l) ensures x <= m {
        assert x <= d;
      }
      DropKeepsAbove(Keys(r), m, m);
    }
  }

  /**
   * Under the weaker order (so in every search tree), deletion changes the
   * tree exactly when the key is stored.
   */
  lemma DeleteChanges(k: int, t: BinTree)
    requires WeakBst(t)
    ensures Delete(k, t) == t <==> k !in Keys(t)
  {
    if Search(k, t) {
      SearchSound(k, t);
    }
    if k in Keys(t) {
      DeleteKeys(k, t);
      assert |Keys(Delete(k, t))| == |Keys(t)| - 1;
    } else {
      DeleteAbsent(k, t);
    }
  }

  /**
   * After deleting k from a tree in the weaker order (so from every search
   * tree), `find(k)` still succeeds exactly when the tree held more than
   * one copy of k.
   */
  lemma DeleteThenSearch(k: int, t: BinTree)
    requires WeakBst(t)
    ensures Search(k, Delete(k, t)) <==> Keys(t)[k] > 1
  {
    DeleteKeys(k, t);
    DeleteWeak(k, t);
    var t' := Delete(k, t);
    if Search(k, t') {
      SearchSound(k, t');
    }
    if k in Keys(t') {
      WeakComplete(k, t');
    }
  }

  /**
   * Without search order the successor search can miss: deleting 1 from
   * this tree copies 5 into the root but does not find the node holding 5,
   * so 5 ends up stored twice and no node disappears.
   */
  lemma DeleteWithoutOrder()
    ensures var t := Branch(Branch(Empty, 0, Empty), 1, Branch(Branch(Empty, 5, Empty), 3, Empty));
      && !Bst(t)
      && Delete(1, t) == Branch(Branch(Empty, 0, Empty), 5, Branch(Branch(Empty, 5, Empty), 3, Empty))
  {
    var r := Branch(Branch(Empty, 5, Empty), 3, Empty);
    assert LeftmostKey(r) == 5;
    assert Delete(5, r) == r;
    assert 5 in Keys(r);
  }
}

=== FILE: driver_example.dfy ===
/**
 * The tree the repository's demonstration script builds from [1, 2, 3, 4, 5]
 * and the key sequences its four traversals return.
 */
module DriverExample {
  import opened TreeModel

  function OneToFive(): BinTree
  {
    Build([1, 2, 3, 4, 5], 0, 4)
  }

  /** The midpoint split puts 3 at the root, 1 and 4 below it, 2 and 5 as leaves. */
  lemma OneToFiveShape()
    ensures OneToFive()
            == Branch(Branch(Empty, 1, Branch(Empty, 2, Empty)), 3, Branch(Empty, 4, Branch(Empty, 5, Empty)))
  {
    var a := [1, 2, 3, 4, 5];
    assert Build(a, 0, 1) == Branch(Empty, 1, Build(a, 1, 1));
    assert Build(a, 3, 4) == Branch(Empty, 4, Build(a, 4, 4));
  }

  lemma OneToFiveDepthFirst()
    ensures Inorder(OneToFive()) == [1, 2, 3, 4, 5]
    ensures Preorder(OneToFive()) == [3, 1, 2, 4, 5]
    ensures Postorder(OneToFive()) == [2, 1, 5, 4, 3]
  {
    OneToFiveShape();
  }

  lemma OneToFiveLevelOrder()
    ensures LevelOrder(OneToFive()) == [3, 1, 4, 2, 5]
  {
    OneToFiveShape();
    var l, r := Branch(Empty, 1, Branch(Empty, 2, Empty)), Branch(Empty, 4, Branch(Empty, 5, Empty));
    var two, five := Branch(Empty, 2, Empty), Branch(Empty, 5, Empty);
    BfsStep([OneToFive()]);
    assert [OneToFive()][1..] + Kids(OneToFive()) == [l, r];
    BfsStep([l, r]);
    assert [l, r][1..] + Kids(l) == [r, two];
    BfsStep([r, two]);
    assert [r, two][1..] + Kids(r) == [two, five];
    BfsStep([two, five]);
    assert [two, five][1..] + Kids(two) == [five];
    BfsStep([five]);
    assert [five][1..] + Kids(five) == [];
  }
}

=== FILE: insert_facts.dfy ===
/**
 * Leaf insertion adds exactly one node holding the key, keeps the search
 * order, and leaves every key findable that was findable before.
 */
module InsertFacts {
  import opened TreeModel

  lemma AddToPart(a: multiset<int>, a': multiset<int>, d: int, b: multiset<int>, k: int)
    requires a' == a + multiset{k}
    ensures a' + multiset{d} + b == (a + multiset{d} + b) + multiset{k}
    ensures b + multiset{d} + a' == (b + multiset{d} + a) + multiset{k}
  {
    assert forall x :: (a' + multiset{d} + b)[x] == ((a + multiset{d} + b) + multiset{k})[x];
    assert forall x :: (b + multiset{d} + a')[x] == ((b + multiset{d} + a) + multiset{k})[x];
  }

  /** The key multiset gains exactly one copy of k, and the tree one node. */
  lemma {:induction false} InsertKeys(k: int, t: BinTree)
    ensures Keys(Insert(k, t)) == Keys(t) + multiset{k}
    ensures Size(Insert(k, t)) == Size(t) + 1
  {
    match t
    case Empty =>
    case Branch(l, d, r) =>
      if k < d {
        InsertKeys(k, l);
        AddToPart(Keys(l), Keys(Insert(k, l)), d, Keys(r), k);
      } else {
        InsertKeys(k, r);
        AddToPart(Keys(r), Keys(Insert(k, r)), d, Keys(l), k);
      }
  }

  lemma AddKeepsBelow(b: multiset<int>, k: int, d: int)
    requires (forall x | x in b :: x < d) && k < d
    ensures forall x | x in b + multiset{k} :: x < d
  {
  }

  lemma AddKeepsAbove(b: multiset<int>, k: int, d: int)
    requires (forall x | x in b :: d <= x) && d <= k
    ensures forall x | x in b + multiset{k} :: d <= x
  {
  }

  /** Insertion keeps the order: smaller keys left, equal and larger right. */
  lemma {:induction false} InsertBst(k: int, t: BinTree)
    requires Bst(t)
    ensures Bst(Insert(k, t))
  {
    match t
    case Empty =>
    case Branch(l, d, r) =>
      if k < d {
        InsertBst(k, l);
        InsertKeys(k, l);
        AddKeepsBelow(Keys(l), k, d);
      } else {
        InsertBst(k, r);
        InsertKeys(k, r);
        AddKeepsAbove(Keys(r), k, d);
      }
  }

  lemma AddKeepsAtMost(b: multiset<int>, k: int, d: int)
    requires (forall x | x in b :: x <= d) && k <= d
    ensures forall x | x in b + multiset{k} :: x <= d
  {
  }

  /** Insertion also keeps the weaker order a sorted array with repeats is built into. */
  lemma {:induction false} InsertWeak(k: int, t: BinTree)
    requires WeakBst(t)
    ensures WeakBst(Insert(k, t))
  {
    match t
    case Empty =>
    case Branch(l, d, r) =>
      if k < d {
        InsertWeak(k, l);
        InsertKeys(k, l);
        AddKeepsAtMost(Keys(l), k, d);
      } else {
        InsertWeak(k, r);
        InsertKeys(k, r);
        AddKeepsAbove(Keys(r), k, d);
      }
  }

  /** The inserted key is found afterwards, in any tree. */
  lemma {:induction false} InsertThenSearch(k: int, t: BinTree)
    ensures Search(k, Insert(k, t))
  {
    match t
    case Empty =>
    case Branch(l, d, r) =>
      if k < d {
        InsertThenSearch(k, l);
      } else if k > d {
        InsertThenSearch(k, r);
      }
  }

  /** Insertion only fills an empty slot, so no search that succeeded fails. */
  lemma {:induction false} InsertKeepsSearch(j: int, k: int, t: BinTree)
    requires Search(j, t)
    ensures Search(j, Insert(k, t))
  {
    match t
    case Branch(l, d, r) =>
      if d != j {
        if j > d {
          if k >= d {
            InsertKeepsSearch(j, k, r);
          }
        } else {
          if k < d {
            InsertKeepsSearch(j, k, l);
          }
        }
      }
  }
}

=== FILE: level_order_facts.dfy ===
/**
 * What `levelOrder`'s queue loop emits: every key exactly once, depth by
 * depth from the root down, each depth from left to right.
 */
module LevelOrderFacts {
  import opened TreeModel

  /** The keys of the non-empty subtrees of a queue, front to back. */
  function Roots(f: seq<BinTree>): seq<int>
  {
    if f == [] then []
    else RootKey(f[0]) + Roots(f[1..])
  }

  /** The children a pass over the whole queue would enqueue, in order. */
  function KidsOf(f: seq<BinTree>): seq<BinTree>
  {
    if f == [] then [] else Kids(f[0]) + KidsOf(f[1..])
  }

  function ForestKeys(f: seq<BinTree>): multiset<int>
  {
    if f == [] then multiset{} else Keys(f[0]) + ForestKeys(f[1..])
  }

  /** Depth d of every tree of the queue, front to back. */
  function ForestLevel(f: seq<BinTree>, d: nat): seq<int>
  {
    if f == [] then [] else Level(f[0], d) + ForestLevel(f[1..], d)
  }

  /** Depths d, d+1, ..., d+n-1 of the queue, one after the other. */
  function ForestLevels(f: seq<BinTree>, d: nat, n: nat): seq<int>
    decreases n
  {
    if n == 0 then [] else ForestLevel(f, d) + ForestLevels(f, d + 1, n - 1)
  }

  lemma {:induction false} ForestKeysAppend(a: seq<BinTree>, b: seq<BinTree>)
    ensures ForestKeys(a + b) == ForestKeys(a) + ForestKeys(b)
    decreases |a|
  {
    if a == [] {
      assert a + b == b;
    } else {
      assert (a + b)[1..] == a[1..] + b;
      ForestKeysAppend(a[1..], b);
    }
  }

  lemma ForestKeysOne(x: BinTree)
    ensures ForestKeys([x]) == Keys(x)
  {
    assert [x][1..] == [];
    assert Keys(x) + multiset{} == Keys(x);
  }

  lemma KidsKeys(t: BinTree)
    requires t.Branch?
    ensures ForestKeys(Kids(t)) == Keys(t.left) + Keys(t.right)
  {
    var l, r := t.left, t.right;
    if l == Empty && r == Empty {
      assert Kids(t) == [];
      assert Keys(l) + Keys(r) == multiset{};
    } else if l == Empty {
      assert Kids(t) == [r];
      ForestKeysOne(r);
      assert multiset{} + Keys(r) == Keys(r);
    } else if r == Empty {
      assert Kids(t) == [l];
      ForestKeysOne(l);
      assert Keys(l) + multiset{} == Keys(l);
    } else {
      assert Kids(t) == [l] + [r];
      ForestKeysAppend([l], [r]);
      ForestKeysOne(l);
      ForestKeysOne(r);
    }
  }

  /** The loop emits every key of the queued subtrees exactly once. */
  lemma {:induction false} BfsKeys(f: seq<BinTree>)
    ensures multiset(Bfs(f)) == ForestKeys(f)
    decreases ForestSize(f), |f|
  {
    if f != [] {
      match f[0]
      case Empty =>
        BfsKeys(f[1..]);
      case Branch(l, k, r) =>
        BfsStep(f);
        BfsKeys(f[1..] + Kids(f[0]));
        ForestKeysAppend(f[1..], Kids(f[0]));
        KidsKeys(f[0]);
    }
  }

  /** `levelOrder` returns each node's key exactly once. */
  lemma LevelOrderKeys(t: BinTree)
    ensures multiset(LevelOrder(t)) == Keys(t)
    ensures |LevelOrder(t)| == Size(t)
  {
    BfsKeys([t]);
    assert ForestKeys([t]) == Keys(t);
  }

  /** The key a queue entry contributes when dequeued: none for an empty subtree. */
  function RootKey(x: BinTree): seq<int>
  {
    if x.Branch? then [x.key] else []
  }

  /** One turn of the loop on a queue with x at its front. */
  lemma BfsCons(x: BinTree, q: seq<BinTree>)
    ensures Bfs([x] + q) == RootKey(x) + Bfs(q + Kids(x))
  {
    var s := [x] + q;
    assert s[0] == x && s[1..] == q;
    if x.Branch? {
      BfsStep(s);
    } else {
      assert q + Kids(x) == q;
    }
  }

  lemma AppendAssoc(p: seq<BinTree>, q: seq<BinTree>, r: seq<BinTree>)
    ensures (p + q) + r == p + (q + r)
  {
  }

  lemma KeysAssoc(p: seq<int>, q: seq<int>, r: seq<int>)
    ensures (p + q) + r == p + (q + r)
  {
  }

  lemma AppendCons(a: seq<BinTree>, b: seq<BinTree>)
    requires a != []
    ensures a + b == [a[0]] + (a[1..] + b)
  {
    assert a == [a[0]] + a[1..];
  }

  /**
   * Running the loop over a queue a + b: first the roots of a are emitted,
   * while their children queue up behind b.
   */
  lemma {:induction false} BfsSplit(a: seq<BinTree>, b: seq<BinTree>)
    ensures Bfs(a + b) == Roots(a) + Bfs(b + KidsOf(a))
    decreases |a|
  {
    if a == [] {
      assert a + b == b && b + KidsOf(a) == b;
    } else {
      var x, rest := a[0], a[1..];
      var kx := Kids(x);
      BfsSplit(rest, b + kx);
      AppendCons(a, b);
      BfsCons(x, rest + b);
      AppendAssoc(rest, b, kx);
      AppendAssoc(b, kx, KidsOf(rest));
      assert KidsOf(a) == kx + KidsOf(rest);
      assert Roots(a) == RootKey(x) + Roots(rest);
      KeysAssoc(RootKey(x), Roots(rest), Bfs(b + KidsOf(a)));
    }
  }

  /**
   * One pass over a queue emits one key per node and leaves the remaining
   * nodes in the enqueued children; a queue without roots has no nodes.
   */
  lemma {:induction false} KidsOfSize(f: seq<BinTree>)
    ensures ForestSize(KidsOf(f)) + |Roots(f)| == ForestSize(f)
    ensures |Roots(f)| == 0 ==> ForestSize(f) == 0
    ensures ForestSize(f) == 0 ==> KidsOf(f) == []
  {
    if f != [] {
      KidsOfSize(f[1..]);
      ForestSizeAppend(Kids(f[0]), KidsOf(f[1..]));
      if f[0].Branch? {
        KidsSize(f[0]);
      }
    }
  }

  lemma {:induction false} ForestLevelAppend(a: seq<BinTree>, b: seq<BinTree>, d: nat)
    ensures ForestLevel(a + b, d) == ForestLevel(a, d) + ForestLevel(b, d)
    decreases |a|
  {
    if a == [] {
      assert a + b == b;
    } else {
      assert (a + b)[1..] == a[1..] + b;
      ForestLevelAppend(a[1..], b, d);
    }
  }

  /** Depth 0 of a queue is its roots. */
  lemma {:induction false} ForestLevelZero(f: seq<BinTree>)
    ensures ForestLevel(f, 0) == Roots(f)
    decreases |f|
  {
    if f != [] {
      ForestLevelZero(f[1..]);
    }
  }

  /** Depth d below a node's enqueued children is depth d+1 below the node. */
  lemma KidsLevel(t: BinTree, d: nat)
    ensures ForestLevel(Kids(t), d) == Level(t, d + 1)
  {
    if t.Branch? {
      var l, r := t.left, t.right;
      assert ForestLevel([l], d) == Level(l, d);
      assert ForestLevel([r], d) == Level(r, d);
      if l != Empty && r != Empty {
        ForestLevelAppend([l], [r], d);
      }
    }
  }

  lemma {:induction false} KidsOfLevel(f: seq<BinTree>, d: nat)
    ensures ForestLevel(KidsOf(f), d) == ForestLevel(f, d + 1)
    decreases |f|
  {
    if f != [] {
      KidsOfLevel(f[1..], d);
      ForestLevelAppend(Kids(f[0]), KidsOf(f[1..]), d);
      KidsLevel(f[0], d);
    }
  }

  lemma {:induction false} KidsOfLevels(f: seq<BinTree>, d: nat, n: nat)
    ensures ForestLevels(KidsOf(f), d, n) == ForestLevels(f, d + 1, n)
    decreases n
  {
    if n > 0 {
      KidsOfLevel(f, d);
      KidsOfLevels(f, d + 1, n - 1);
    }
  }

  /**
   * The loop over a queue emits its depths one after the other, as many
   * depths as there are nodes (more than the queue is deep).
   */
  lemma {:induction false} BfsByLevels(f: seq<BinTree>, n: nat)
    requires ForestSize(f) <= n
    ensures Bfs(f) == ForestLevels(f, 0, n)
    decreases n
  {
    KidsOfSize(f);
    BfsSplit(f, []);
    assert f + [] == f && [] + KidsOf(f) == KidsOf(f);
    if n == 0 {
      assert Roots(f) == [] && KidsOf(f) == [];
    } else {
      BfsByLevels(KidsOf(f), n - 1);
      KidsOfLevels(f, 0, n - 1);
      ForestLevelZero(f);
    }
  }

  lemma {:induction false} SingleLevels(t: BinTree, d: nat, n: nat)
    ensures ForestLevels([t], d, n) == LevelsFrom(t, d, n)
    decreases n
  {
    if n > 0 {
      assert ForestLevel([t], d) == Level(t, d) + [];
      SingleLevels(t, d + 1, n - 1);
    }
  }

  /**
   * `levelOrder` lists the root's key, then the keys at depth 1 from left
   * to right, then depth 2, and so on: no node is emitted before a node
   * nearer the root, so every parent precedes its children.
   */
  lemma LevelOrderByLevels(t: BinTree)
    ensures LevelOrder(t) == LevelsFrom(t, 0, Size(t))
  {
    assert ForestSize([t]) == Size(t);
    BfsByLevels([t], Size(t));
    SingleLevels(t, 0, Size(t));
  }

  /** `levelOrder` starts with the root's key. */
  lemma LevelOrderStartsAtRoot(t: BinTree)
    requires t.Branch?
    ensures |LevelOrder(t)| > 0 && LevelOrder(t)[0] == t.key
  {
    BfsStep([t]);
  }
}

=== FILE: node.dfy ===
/**
 * The mutable node record the tree is linked from: a key and two child
 * links, all three public and reassigned in place by `Tree`.
 */
module Nodes {
  import opened TreeModel

  class Node {
    var data: int
    var left: Node?
    var right: Node?

    /** The nodes of the subtree rooted here, this node included. */
    ghost var Repr: set<Node>
    /** The value the subtree rooted here denotes. */
    ghost var Model: BinTree

    /**
     * The subtree rooted here is a finite tree: each child's subtree lies
     * inside this one, does not contain this node, and the two children's
     * subtrees share no node; `Model` is the value the links denote. (The
     * methods that relink nodes keep `Repr` exact; validity only needs it to
     * cover the subtree.)
     */
    ghost predicate Valid()
      reads this, Repr
      decreases Repr
    {
      && this in Repr
      && (left != null ==>
            left in Repr && left.Repr <= Repr && this !in left.Repr && left.Valid())
      && (right != null ==>
            right in Repr && right.Repr <= Repr && this !in right.Repr && right.Valid())
      && (left != null && right != null ==> left.Repr !! right.Repr)
      && Model == Branch(ModelOf(left), data, ModelOf(right))
    }

    /**
     * `new Node(data, left, right)`, the children defaulting to null. The
     * fields hold exactly the arguments; when the children are themselves
     * valid, disjoint subtrees, the new node roots a valid subtree over them.
     */
    constructor (data: int, left: Node? := null, right: Node? := null)
      ensures this.data == data && this.left == left && this.right == right
      ensures Repr == {this} + ReprOf(left) + ReprOf(right)
      ensures Model == Branch(ModelOf(left), data, ModelOf(right))
      ensures (left != null ==> left.Valid()) && (right != null ==> right.Valid())
              && (left != null && right != null ==> left.Repr !! right.Repr)
              ==> Valid()
    {
      this.data := data;
      this.left := left;
      this.right := right;
      Repr := {this} + ReprOf(left) + ReprOf(right);
      Model := Branch(ModelOf(left), data, ModelOf(right));
    }
  }

  /** The value a possibly-null link denotes. */
  ghost function ModelOf(n: Node?): BinTree
    reads n
  {
    if n == null then Empty else n.Model
  }

  /** The nodes reachable through a possibly-null link. */
  ghost function ReprOf(n: Node?): set<Node>
    reads n
  {
    if n == null then {} else n.Repr
  }

  /** The values a sequence of nodes denote, in order. */
  ghost function ModelsOf(q: seq<Node>): seq<BinTree>
    reads q
  {
    if q == [] then [] else [q[0].Model] + ModelsOf(q[1..])
  }

  lemma {:induction false} ModelsOfAppend(a: seq<Node>, b: seq<Node>)
    ensures ModelsOf(a + b) == ModelsOf(a) + ModelsOf(b)
    decreases |a|
  {
    if a == [] {
      assert a + b == b;
    } else {
      assert (a + b)[1..] == a[1..] + b;
      ModelsOfAppend(a[1..], b);
    }
  }

  /** The children `levelOrder` enqueues for a node: present ones, left first. */
  ghost function Children(n: Node): seq<Node>
    reads n
  {
    (if n.left != null then [n.left] else []) + (if n.right != null then [n.right] else [])
  }

  lemma ChildrenModels(n: Node)
    requires n.Valid()
    ensures ModelsOf(Children(n)) == Kids(n.Model)
  {
    if n.left != null {
      assert n.left.Valid();
      assert ModelsOf([n.left]) == [n.left.Model];
    }
    if n.right != null {
      assert n.right.Valid();
      assert ModelsOf([n.right]) == [n.right.Model];
    }
    if n.left != null && n.right != null {
      ModelsOfAppend([n.left], [n.right]);
    }
  }

  /**
   * One turn of `levelOrder`'s queue loop on valid nodes: dequeuing the
   * head and enqueuing its children emits the head's key, keeps every
   * queued node valid and shrinks the nodes still to be visited.
   */
  lemma Dequeue(queue: seq<Node>)
    requires queue != [] && forall n <- queue :: n.Valid()
    ensures var rest := queue[1..] + Children(queue[0]);
      && (forall n <- rest :: n.Valid())
      && Bfs(ModelsOf(queue)) == [queue[0].data] + Bfs(ModelsOf(rest))
      && ForestSize(ModelsOf(rest)) < ForestSize(ModelsOf(queue))
  {
    var node := queue[0];
    assert node in queue;
    assert ModelsOf(queue) == [node.Model] + ModelsOf(queue[1..]);
    BfsStep(ModelsOf(queue));
    ChildrenModels(node);
    ModelsOfAppend(queue[1..], Children(node));
    forall n <- queue[1..] + Children(node)
      ensures n.Valid()
    {
      if n in queue[1..] {
        assert n in queue;
      }
    }
  }
}

=== FILE: search_facts.dfy ===
/**
 * `find` follows a single root-to-leaf path; in a search tree that path
 * reaches a node holding the key exactly when the key is stored somewhere.
 */
module SearchFacts {
  import opened TreeModel

  /** Whatever the order of the keys, a successful search found a stored key. */
  lemma {:induction false} SearchSound(k: int, t: BinTree)
    requires Search(k, t)
    ensures k in Keys(t)
  {
    match t
    case Branch(l, d, r) =>
      if d != k {
        if k > d {
          SearchSound(k, r);
        } else {
          SearchSound(k, l);
        }
      }
  }

  /** In a search tree every stored key lies on its own search path. */
  lemma {:induction false} SearchComplete(k: int, t: BinTree)
    requires Bst(t) && k in Keys(t)
    ensures Search(k, t)
  {
    match t
    case Branch(l, d, r) =>
      if d != k {
        if k > d {
          assert k !in Keys(l);
          SearchComplete(k, r);
        } else {
          assert k !in Keys(r);
          SearchComplete(k, l);
        }
      }
  }

  /**
   * The weaker order is enough for `find`: it stops at the first equal key
   * and goes right only for a larger key, so a stored key equal to a
   * node's key is found at that node at the latest.
   */
  lemma {:induction false} WeakComplete(k: int, t: BinTree)
    requires WeakBst(t) && k in Keys(t)
    ensures Search(k, t)
  {
    match t
    case Branch(l, d, r) =>
      if d != k {
        if k > d {
          assert k !in Keys(l);
          WeakComplete(k, r);
        } else {
          assert k !in Keys(r);
          WeakComplete(k, l);
        }
      }
  }

  /** A search tree has the weaker order too. */
  lemma {:induction false} BstIsWeak(t: BinTree)
    requires Bst(t)
    ensures WeakBst(t)
  {
    match t
    case Empty =>
    case Branch(l, d, r) =>
      BstIsWeak(l);
      BstIsWeak(r);
  }

  /**
   * `find` returns a node exactly when the search succeeds; that node holds
   * the key and roots a subtree of the tree, and no node above it on the
   * search path holds the key.
   */
  lemma {:induction false} FoundIsSearch(k: int, t: BinTree)
    ensures Found(k, t).Branch? <==> Search(k, t)
    ensures Found(k, t).Branch? ==> Found(k, t).key == k && Size(Found(k, t)) <= Size(t)
    ensures t.Branch? && t.key == k ==> Found(k, t) == t
  {
    match t
    case Empty =>
    case Branch(l, d, r) =>
      if d != k {
        if k > d {
          FoundIsSearch(k, r);
        } else {
          FoundIsSearch(k, l);
        }
      }
  }

  /** `find` on a search tree succeeds exactly for the stored keys. */
  lemma SearchCorrect(k: int, t: BinTree)
    requires Bst(t)
    ensures Search(k, t) <==> k in Keys(t)
  {
    if Search(k, t) {
      SearchSound(k, t);
    }
    if k in Keys(t) {
      SearchComplete(k, t);
    }
  }
}

=== FILE: traversal_facts.dfy ===
/**
 * What the three depth-first traversals return: every key exactly once,
 * in the order each one promises.
 */
module TraversalFacts {
  import opened TreeModel

  /** `inorder` returns each node's key exactly once. */
  lemma {:induction false} InorderKeys(t: BinTree)
    ensures multiset(Inorder(t)) == Keys(t)
    ensures |Inorder(t)| == Size(t)
  {
    match t
    case Empty =>
    case Branch(l, k, r) =>
      InorderKeys(l);
      InorderKeys(r);
  }

  /** `preorder` returns each node's key exactly once. */
  lemma {:induction false} PreorderKeys(t: BinTree)
    ensures multiset(Preorder(t)) == Keys(t)
    ensures |Preorder(t)| == Size(t)
  {
    match t
    case Empty =>
    case Branch(l, k, r) =>
      PreorderKeys(l);
      PreorderKeys(r);
  }

  /** `postorder` returns each node's key exactly once. */
  lemma {:induction false} PostorderKeys(t: BinTree)
    ensures multiset(Postorder(t)) == Keys(t)
    ensures |Postorder(t)| == Size(t)
  {
    match t
    case Empty =>
    case Branch(l, k, r) =>
      PostorderKeys(l);
      PostorderKeys(r);
  }

  /** `preorder` visits the root first and `postorder` visits it last. */
  lemma RootFirstAndLast(t: BinTree)
    requires t.Branch?
    ensures Preorder(t)[0] == t.key
    ensures Postorder(t)[|Postorder(t)| - 1] == t.key
  {
  }

  /**
   * `inorder` starts at the leftmost node, the node `inorderSuccessor`
   * walks to.
   */
  lemma {:induction false} InorderStartsLeftmost(t: BinTree)
    requires t.Branch?
    ensures |Inorder(t)| > 0 && Inorder(t)[0] == LeftmostKey(t)
  {
    if t.left != Empty {
      InorderStartsLeftmost(t.left);
    }
  }

  /** Concatenating two sorted runs, each bounded by a pivot, stays sorted. */
  lemma SortedJoin(a: seq<int>, k: int, b: seq<int>)
    requires NonDecreasing(a) && NonDecreasing(b)
    requires forall x | x in a :: x <= k
    requires forall x | x in b :: k <= x
    ensures NonDecreasing(a + [k] + b)
  {
    var s := a + [k] + b;
    forall i, j | 0 <= i < j < |s|
      ensures s[i] <= s[j]
    {
      if j < |a| {
      } else if i < |a| {
        assert s[i] in a;
        if j > |a| {
          assert s[j] == b[j - |a| - 1] && s[j] in b;
        }
      } else if i == |a| {
        assert s[j] == b[j - |a| - 1] && s[j] in b;
      } else {
        assert s[i] == b[i - |a| - 1] && s[j] == b[j - |a| - 1];
      }
    }
  }

  /** In a search tree `inorder` lists the keys in non-decreasing order. */
  lemma {:induction false} BstInorderSorted(t: BinTree)
    requires Bst(t)
    ensures NonDecreasing(Inorder(t))
  {
    match t
    case Empty =>
    case Branch(l, k, r) =>
      BstInorderSorted(l);
      BstInorderSorted(r);
      InorderKeys(l);
      InorderKeys(r);
      assert forall x | x in Inorder(l) :: x <= k by {
        forall x | x in Inorder(l) ensures x <= k {
          assert x in multiset(Inorder(l));
        }
      }
      assert forall x | x in Inorder(r) :: k <= x by {
        forall x | x in Inorder(r) ensures k <= x {
          assert x in multiset(Inorder(r));
        }
      }
      SortedJoin(Inorder(l), k, Inorder(r));
  }

  /** The pieces of a strictly increasing run around a pivot. */
  lemma IncreasingSplit(a: seq<int>, k: int, b: seq<int>)
    requires StrictlyIncreasing(a + [k] + b)
    ensures StrictlyIncreasing(a) && StrictlyIncreasing(b)
    ensures forall x | x in a :: x < k
    ensures forall x | x in b :: k < x
  {
    var s := a + [k] + b;
    forall i, j | 0 <= i < j < |a| ensures a[i] < a[j] {
      assert a[i] == s[i] && a[j] == s[j];
    }
    forall i, j | 0 <= i < j < |b| ensures b[i] < b[j] {
      assert b[i] == s[|a| + 1 + i] && b[j] == s[|a| + 1 + j];
    }
    forall x | x in a ensures x < k {
      var i :| 0 <= i < |a| && a[i] == x;
      assert s[i] == x && s[|a|] == k;
    }
    forall x | x in b ensures k < x {
      var i :| 0 <= i < |b| && b[i] == x;
      assert s[|a| + 1 + i] == x && s[|a|] == k;
    }
  }

  /** The pieces of a non-decreasing run around a pivot. */
  lemma NonDecreasingSplit(a: seq<int>, k: int, b: seq<int>)
    requires NonDecreasing(a + [k] + b)
    ensures NonDecreasing(a) && NonDecreasing(b)
    ensures forall x | x in a :: x <= k
    ensures forall x | x in b :: k <= x
  {
    var s := a + [k] + b;
    forall i, j | 0 <= i < j < |a| ensures a[i] <= a[j] {
      assert a[i] == s[i] && a[j] == s[j];
    }
    forall i, j | 0 <= i < j < |b| ensures b[i] <= b[j] {
      assert b[i] == s[|a| + 1 + i] && b[j] == s[|a| + 1 + j];
    }
    forall x | x in a ensures x <= k {
      var i :| 0 <= i < |a| && a[i] == x;
      assert s[i] == x && s[|a|] == k;
    }
    forall x | x in b ensures k <= x {
      var i :| 0 <= i < |b| && b[i] == x;
      assert s[|a| + 1 + i] == x && s[|a|] == k;
    }
  }

  /** A tree whose `inorder` does not decrease has the weaker order. */
  lemma {:induction false} NonDecreasingInorderWeak(t: BinTree)
    requires NonDecreasing(Inorder(t))
    ensures WeakBst(t)
  {
    match t
    case Empty =>
    case Branch(l, k, r) =>
      NonDecreasingSplit(Inorder(l), k, Inorder(r));
      NonDecreasingInorderWeak(l);
      NonDecreasingInorderWeak(r);
      InorderKeys(l);
      InorderKeys(r);
      forall x | x in Keys(l) ensures x <= k {
        assert x in multiset(Inorder(l));
        assert x in Inorder(l);
      }
      forall x | x in Keys(r) ensures k <= x {
        assert x in multiset(Inorder(r));
        assert x in Inorder(r);
      }
  }

  /** A tree whose `inorder` is strictly increasing is a search tree. */
  lemma {:induction false} IncreasingInorderBst(t: BinTree)
    requires StrictlyIncreasing(Inorder(t))
    ensures Bst(t)
  {
    match t
    case Empty =>
    case Branch(l, k, r) =>
      IncreasingSplit(Inorder(l), k, Inorder(r));
      IncreasingInorderBst(l);
      IncreasingInorderBst(r);
      InorderKeys(l);
      InorderKeys(r);
      forall x | x in Keys(l) ensures x < k {
        assert x in multiset(Inorder(l));
        assert x in Inorder(l);
      }
      forall x | x in Keys(r) ensures k <= x {
        assert x in multiset(Inorder(r));
        assert x in Inorder(r);
      }
  }
}

=== FILE: tree.dfy ===
/**
 * The search tree: a root link and the operations that build, grow, shrink,
 * search and traverse the linked `Node`s. Each method is proved to compute
 * the value-level function of `TreeModel` that describes it.
 */
module Trees {
  import opened TreeModel
  import opened Nodes
  import InsertFacts
  import DeleteFacts
  import SearchFacts

  class Tree {
    var root: Node?

    /** The nodes reachable from `root`. */
    ghost function Elements(): set<Node>
      reads this, root
    {
      ReprOf(root)
    }

    ghost predicate Valid()
      reads this, root, Elements()
    {
      root != null ==> root.Valid()
    }

    /** The value the whole tree denotes. */
    ghost function Model(): BinTree
      reads this, root
    {
      ModelOf(root)
    }

    /** A new tree is empty. */
    constructor ()
      ensures root == null && Valid() && Model() == Empty
    {
      root := null;
    }

    // -------------------------------------------------------------------
    // buildTree
    // -------------------------------------------------------------------

    /**
     * Links fresh nodes for a[start..end] (inclusive) by midpoint split and
     * returns the subtree's root, or null when the range is empty. Every
     * level of the recursion stores its result in `root`, so after the
     * outermost call `root` is the node returned; an empty range returns
     * before that store and leaves `root` as it was.
     */
    method BuildTree(a: seq<int>, start: int, end: int) returns (res: Node?)
      requires start <= end ==> 0 <= start && end < |a|
      modifies this
      ensures start > end ==> res == null && root == old(root)
      ensures start <= end ==>
                && res != null && root == res
                && fresh(res.Repr) && res.Valid()
                && res.Model == Build(a, start, end)
      decreases end - start
    {
      if start > end {
        return null;
      }
      var mid := (start + end) / 2;
      assert Build(a, start, end) == Branch(Build(a, start, mid - 1), a[mid], Build(a, mid + 1, end));
      var node := new Node(a[mid]);
      var l := BuildTree(a, start, mid - 1);
      node.left := l;
      var r := BuildTree(a, mid + 1, end);
      node.right := r;
      node.Repr, node.Model := {node} + ReprOf(l) + ReprOf(r), Branch(ModelOf(l), node.data, ModelOf(r));
      root := node;
      res := node;
    }

    // -------------------------------------------------------------------
    // attachNode / insert
    // -------------------------------------------------------------------

    /**
     * Walks down from `r` (left for a smaller key, right otherwise) and
     * links a fresh leaf holding `key` into the first null slot. Called with
     * null it makes the fresh node the tree's root instead. No existing
     * node changes its key; the one new node is `leaf`.
     */
    method AttachNode(key: int, r: Node?) returns (ghost leaf: Node)
      requires r != null ==> r.Valid()
      modifies this, ReprOf(r)
      ensures fresh(leaf) && leaf.data == key && leaf.left == null && leaf.right == null
      ensures leaf.Valid() && leaf.Repr == {leaf} && leaf.Model == Branch(Empty, key, Empty)
      ensures r == null ==> root == leaf
      ensures r != null ==>
                && root == old(root)
                && r.Valid()
                && r.Model == TreeModel.Insert(key, old(r.Model))
                && r.Repr == old(r.Repr) + {leaf}
      ensures forall n <- old(ReprOf(r)) :: n.data == old(n.data)
      decreases ReprOf(r)
    {
      if r == null {
        var n := new Node(key);
        root := n;
        leaf := n;
        return;
      }
      if key < r.data {
        if r.left == null {
          var n := new Node(key);
          r.left := n;
          leaf := n;
        } else {
          leaf := AttachNode(key, r.left);
        }
      } else {
        if r.right == null {
          var n := new Node(key);
          r.right := n;
          leaf := n;
        } else {
          leaf := AttachNode(key, r.right);
        }
      }
      r.Repr := r.Repr + {leaf};
      r.Model := Branch(ModelOf(r.left), r.data, ModelOf(r.right));
    }

    /**
     * `insert(key)`: one fresh leaf holding `key` joins the tree; on an
     * empty tree it becomes the root, otherwise the root stays the same node.
     * The key multiset gains exactly `key`, and search order is kept.
     */
    method Insert(key: int) returns (ghost leaf: Node)
      requires Valid()
      modifies this, Elements()
      ensures Valid()
      ensures Model() == TreeModel.Insert(key, old(Model()))
      ensures fresh(leaf) && leaf.data == key && leaf.left == null && leaf.right == null
      ensures Elements() == old(Elements()) + {leaf}
      ensures old(root) == null ==> root == leaf
      ensures old(root) != null ==> root == old(root)
      ensures forall n <- old(Elements()) :: n.data == old(n.data)
      ensures Keys(Model()) == old(Keys(Model())) + multiset{key}
      ensures old(Bst(Model())) ==> Bst(Model())
    {
      ghost var before := Model();
      leaf := AttachNode(key, root);
      InsertFacts.InsertKeys(key, before);
      if Bst(before) {
        InsertFacts.InsertBst(key, before);
      }
    }

    // -------------------------------------------------------------------
    // delete / removeNode / inorderSuccessor
    // -------------------------------------------------------------------

    /**
     * Walks left from `node` to the node with no left child and returns it;
     * its key is the leftmost key of `node`'s subtree.
     */
    method InorderSuccessor(node: Node) returns (current: Node)
      requires node.Valid()
      ensures current in node.Repr && current.Valid() && current.left == null
      ensures current.data == LeftmostKey(node.Model)
    {
      current := node;
      while current.left != null
        invariant current in node.Repr && current.Valid()
        invariant LeftmostKey(current.Model) == LeftmostKey(node.Model)
        decreases current.Repr
      {
        current := current.left;
      }
    }

    /**
     * Removes the node `node` from the subtree it roots and returns what
     * replaces it. With two children the node stays, takes the leftmost key
     * of its right subtree, and that key is deleted from the right subtree.
     * Otherwise nothing is written: the result is the left child if there is
     * one, else the right child.
     */
    method RemoveNode(node: Node) returns (res: Node?)
      requires node.Valid()
      modifies node.Repr
      ensures res != null ==> res.Valid() && res.Repr <= old(node.Repr)
      ensures ModelOf(res) == RemoveRoot(old(node.Model))
      ensures old(node.left != null && node.right != null) ==> res == node
      ensures old(node.left == null || node.right == null) ==>
                res == old(if node.left != null then node.left else node.right)
                && res != node && unchanged(old(node.Repr))
      decreases node.Repr, 0
    {
      if node.left != null && node.right != null {
        var successor := InorderSuccessor(node.right);
        node.data := successor.data;
        var nr := Delete(successor.data, node.right);
        node.right := nr;
        node.Repr := {node} + node.left.Repr + ReprOf(nr);
        node.Model := Branch(node.left.Model, node.data, ModelOf(nr));
        res := node;
      } else {
        res := if node.left != null then node.left else node.right;
      }
    }

    /**
     * `delete(key, r)`: removes the first node holding `key` on the search
     * path from `r` and returns the subtree that replaces `r`. Parents are
     * relinked to the recursive results, but `root` is never written. When
     * `r` itself is the node removed and has at most one child, nothing at
     * all is written and the returned child differs from `r`.
     */
    method Delete(key: int, r: Node?) returns (res: Node?)
      requires r != null ==> r.Valid()
      modifies ReprOf(r)
      ensures res != null ==> res.Valid() && res.Repr <= old(ReprOf(r))
      ensures ModelOf(res) == TreeModel.Delete(key, old(ModelOf(r)))
      ensures !SplicesRoot(key, old(ModelOf(r))) ==> res == r
      ensures SplicesRoot(key, old(ModelOf(r))) ==> res != r && unchanged(old(ReprOf(r)))
      decreases ReprOf(r), 1
    {
      if r == null {
        return r;
      }
      if r.data == key {
        res := RemoveNode(r);
      } else if key > r.data {
        var nr := Delete(key, r.right);
        r.right := nr;
        r.Repr := {r} + ReprOf(r.left) + ReprOf(nr);
        r.Model := Branch(ModelOf(r.left), r.data, ModelOf(nr));
        res := r;
      } else {
        var nl := Delete(key, r.left);
        r.left := nl;
        r.Repr := {r} + ReprOf(nl) + ReprOf(r.right);
        r.Model := Branch(ModelOf(nl), r.data, ModelOf(r.right));
        res := r;
      }
    }

    /**
     * `delete(key)` with its default argument, the tree's root. The result
     * is the new subtree, but `root` keeps pointing at the old root node:
     * when that node is the one spliced out, the tree reached from `root`
     * is left exactly as it was. On a search tree the returned subtree is a
     * search tree holding one copy of `key` fewer.
     */
    method DeleteFromRoot(key: int) returns (res: Node?)
      requires Valid()
      modifies Elements()
      ensures root == old(root) && Valid()
      ensures res != null ==> res.Valid()
      ensures ModelOf(res) == TreeModel.Delete(key, old(Model()))
      ensures Model() == if SplicesRoot(key, old(Model())) then old(Model())
                         else TreeModel.Delete(key, old(Model()))
      ensures old(Bst(Model())) ==>
                Bst(ModelOf(res)) && Keys(ModelOf(res)) == old(Keys(Model())) - multiset{key}
      ensures old(WeakBst(Model())) ==>
                WeakBst(ModelOf(res)) && Keys(ModelOf(res)) == old(Keys(Model())) - multiset{key}
    {
      ghost var before := Model();
      res := Delete(key, root);
      if Bst(before) {
        SearchFacts.BstIsWeak(before);
        DeleteFacts.DeleteBst(key, before);
      }
      if WeakBst(before) {
        DeleteFacts.DeleteKeys(key, before);
        DeleteFacts.DeleteWeak(key, before);
      }
    }

    /**
     * `delete(key)` as its result evidently means it: the subtree returned
     * for the root becomes the tree's root, so deleting the root's key also
     * works when the root has at most one child.
     */
    method DeleteKey(key: int)
      requires Valid()
      modifies this, Elements()
      ensures Valid()
      ensures Model() == TreeModel.Delete(key, old(Model()))
      ensures old(Bst(Model())) ==>
                Bst(Model()) && Keys(Model()) == old(Keys(Model())) - multiset{key}
      ensures old(WeakBst(Model())) ==>
                WeakBst(Model()) && Keys(Model()) == old(Keys(Model())) - multiset{key}
    {
      var r := DeleteFromRoot(key);
      root := r;
    }

    // -------------------------------------------------------------------
    // find
    // -------------------------------------------------------------------

    /**
     * `find(key, r)`: follows the search path from `r` and returns the first
     * node on it holding `key`, or fails with ItemNotFound on reaching null.
     * On a search tree it succeeds exactly when `key` is stored.
     */
    method Find(key: int, r: Node?) returns (res: Result<Node>)
      requires r != null ==> r.Valid()
      ensures res.Ok? <==> Search(key, ModelOf(r))
      ensures Bst(ModelOf(r)) ==> (res.Ok? <==> key in Keys(ModelOf(r)))
      ensures res.Ok? ==> res.value in ReprOf(r) && res.value.data == key
      ensures res.Ok? ==> res.value.Valid() && res.value.Model == Found(key, ModelOf(r))
      ensures res.Err? ==> res.error == ItemNotFound
      decreases ReprOf(r)
    {
      if Bst(ModelOf(r)) {
        SearchFacts.SearchCorrect(key, ModelOf(r));
      }
      if r == null {
        return Err(ItemNotFound);
      }
      if r.data == key {
        return Ok(r);
      }
      if key > r.data {
        res := Find(key, r.right);
      } else {
        res := Find(key, r.left);
      }
    }

    // -------------------------------------------------------------------
    // Traversals (the mode that collects keys; see README for the callback)
    // -------------------------------------------------------------------

    /**
     * `levelOrder(r)`: breadth-first, with a FIFO queue seeded with `r`;
     * each node taken from the front enqueues its present children, left
     * first, and contributes its key.
     */
    method LevelOrder(r: Node?) returns (res: Result<seq<int>>)
      requires r != null ==> r.Valid()
      ensures r == null ==> res == Err(InvalidRoot)
      ensures r != null ==> res == Ok(TreeModel.LevelOrder(r.Model))
    {
      if r == null {
        return Err(InvalidRoot);
      }
      var queue: seq<Node> := [r];
      var out: seq<int> := [];
      while |queue| > 0
        invariant forall n <- queue :: n.Valid()
        invariant out + Bfs(ModelsOf(queue)) == Bfs([r.Model])
        decreases ForestSize(ModelsOf(queue)), |queue|
      {
        var node := queue[0];
        Dequeue(queue);
        ghost var rest := queue[1..] + Children(node);
        ghost var emitted := Bfs(ModelsOf(rest));
        assert out + Bfs(ModelsOf(queue)) == (out + [node.data]) + emitted;
        queue := queue[1..];
        if node.left != null {
          var kid: Node := node.left;
          queue := queue + [kid];
        }
        if node.right != null {
          var kid: Node := node.right;
          queue := queue + [kid];
        }
        out := out + [node.data];
        assert queue == rest;
      }
      assert out + Bfs([]) == out;
      return Ok(out);
    }

    /** The closure of `inorder`: appends the keys below `node` to `arr`. */
    method InorderTraverse(node: Node?, arr: seq<int>) returns (out: seq<int>)
      requires node != null ==> node.Valid()
      ensures out == arr + TreeModel.Inorder(ModelOf(node))
      decreases ReprOf(node)
    {
      out := arr;
      if node != null {
        out := InorderTraverse(node.left, out);
        out := out + [node.data];
        out := InorderTraverse(node.right, out);
      }
    }

    method Inorder(r: Node?) returns (res: Result<seq<int>>)
      requires r != null ==> r.Valid()
      ensures r == null ==> res == Err(InvalidRoot)
      ensures r != null ==> res == Ok(TreeModel.Inorder(r.Model))
    {
      if r == null {
        return Err(InvalidRoot);
      }
      var arr := InorderTraverse(r, []);
      assert arr == [] + TreeModel.Inorder(r.Model) == TreeModel.Inorder(r.Model);
      return Ok(arr);
    }

    /** The closure of `preorder`: appends the keys below `node` to `arr`. */
    method PreorderTraverse(node: Node?, arr: seq<int>) returns (out: seq<int>)
      requires node != null ==> node.Valid()
      ensures out == arr + TreeModel.Preorder(ModelOf(node))
      decreases ReprOf(node)
    {
      out := arr;
      if node != null {
        out := out + [node.data];
        out := PreorderTraverse(node.left, out);
        out := PreorderTraverse(node.right, out);
      }
    }

    method Preorder(r: Node?) returns (res: Result<seq<int>>)
      requires r != null ==> r.Valid()
      ensures r == null ==> res == Err(InvalidRoot)
      ensures r != null ==> res == Ok(TreeModel.Preorder(r.Model))
    {
      if r == null {
        return Err(InvalidRoot);
      }
      var arr := PreorderTraverse(r, []);
      assert arr == [] + TreeModel.Preorder(r.Model) == TreeModel.Preorder(r.Model);
      return Ok(arr);
    }

    /** The closure of `postorder`: appends the keys below `node` to `arr`. */
    method PostorderTraverse(node: Node?, arr: seq<int>) returns (out: seq<int>)
      requires node != null ==> node.Valid()
      ensures out == arr + TreeModel.Postorder(ModelOf(node))
      decreases ReprOf(node)
    {
      out := arr;
      if node != null {
        out := PostorderTraverse(node.left, out);
        out := PostorderTraverse(node.right, out);
        out := out + [node.data];
      }
    }

    method Postorder(r: Node?) returns (res: Result<seq<int>>)
      requires r != null ==> r.Valid()
      ensures r == null ==> res == Err(InvalidRoot)
      ensures r != null ==> res == Ok(TreeModel.Postorder(r.Model))
    {
      if r == null {
        return Err(InvalidRoot);
      }
      var arr := PostorderTraverse(r, []);
      assert arr == [] + TreeModel.Postorder(r.Model) == TreeModel.Postorder(r.Model);
      return Ok(arr);
    }
  }

  /**
   * `delete(key)` on the tree holding the single key 5 removes nothing: the
   * node holding 5 is the root and has no children, so `delete` returns
   * null for it, which is never stored in `root`.
   */
  method DeleteLoneRoot() returns (t: Tree, res: Node?)
    ensures t.Valid() && t.Model() == Branch(Empty, 5, Empty)
    ensures res == null
  {
    t := new Tree();
    var leaf := t.Insert(5);
    res := t.DeleteFromRoot(5);
  }

  /** The same call through `DeleteKey` leaves the tree empty. */
  method DeleteKeyLoneRoot() returns (t: Tree)
    ensures t.Valid() && t.Model() == Empty
  {
    t := new Tree();
    var leaf := t.Insert(5);
    t.DeleteKey(5);
  }
}

=== FILE: tree_model.dfy ===
/**
 * Value-level model of the search tree.
 *
 * A chain of `Node` objects denotes a `BinTree` value: `Empty` for a null
 * link, otherwise the node's key and the values of its two children. Every
 * operation of `Tree` is described here by a function on such values that
 * follows the operation's code branch by branch; the heap methods in module
 * `Trees` are proved to compute exactly these functions.
 */
module TreeModel {

  /** The failures the tree raises (as thrown errors) instead of returning. */
  datatype Error = InvalidRoot | ItemNotFound

  datatype Result<T> = Ok(value: T) | Err(error: Error)

  datatype BinTree = Empty | Branch(left: BinTree, key: int, right: BinTree)

  function Size(t: BinTree): nat
  {
    match t
    case Empty => 0
    case Branch(l, _, r) => Size(l) + 1 + Size(r)
  }

  /** The multiset of keys stored in the tree, one element per node. */
  function Keys(t: BinTree): multiset<int>
  {
    match t
    case Empty => multiset{}
    case Branch(l, k, r) => Keys(l) + multiset{k} + Keys(r)
  }

  /** One key per node. */
  lemma {:induction false} KeysCount(t: BinTree)
    ensures |Keys(t)| == Size(t)
  {
    match t
    case Empty =>
    case Branch(l, _, r) =>
      KeysCount(l);
      KeysCount(r);
  }

  /**
   * Search-tree order with ties to the right: every key of the left subtree
   * is smaller than the node's key, every key of the right subtree is at
   * least as large.
   */
  predicate Bst(t: BinTree)
  {
    match t
    case Empty => true
    case Branch(l, k, r) =>
      && Bst(l) && Bst(r)
      && (forall x | x in Keys(l) :: x < k)
      && (forall x | x in Keys(r) :: k <= x)
  }

  /**
   * The order a sorted array with repeated keys is built into: every key of
   * the left subtree is at most the node's key, every key of the right
   * subtree at least. Every search tree has it.
   */
  predicate WeakBst(t: BinTree)
  {
    match t
    case Empty => true
    case Branch(l, k, r) =>
      && WeakBst(l) && WeakBst(r)
      && (forall x | x in Keys(l) :: x <= k)
      && (forall x | x in Keys(r) :: k <= x)
  }

  predicate StrictlyIncreasing(s: seq<int>)
  {
    forall i, j | 0 <= i < j < |s| :: s[i] < s[j]
  }

  predicate NonDecreasing(s: seq<int>)
  {
    forall i, j | 0 <= i < j < |s| :: s[i] <= s[j]
  }

  // ---------------------------------------------------------------------
  // buildTree
  // ---------------------------------------------------------------------

  /**
   * The tree `buildTree(a, s, e)` links together: the middle element of
   * a[s..e] (inclusive bounds) at the root, the part before it on the left,
   * the part after it on the right. The midpoint truncates, which is Dafny's
   * division here because s and e are non-negative whenever it is taken.
   */
  function Build(a: seq<int>, s: int, e: int): BinTree
    requires s <= e ==> 0 <= s && e < |a|
    decreases e - s
  {
    if s > e then Empty
    else
      var mid := (s + e) / 2;
      Branch(Build(a, s, mid - 1), a[mid], Build(a, mid + 1, e))
  }

  // ---------------------------------------------------------------------
  // attachNode / insert
  // ---------------------------------------------------------------------

  /** Leaf insertion: smaller keys go left, equal and larger keys go right. */
  function Insert(k: int, t: BinTree): BinTree
  {
    match t
    case Empty => Branch(Empty, k, Empty)
    case Branch(l, d, rt) =>
      if k < d then Branch(Insert(k, l), d, rt) else Branch(l, d, Insert(k, rt))
  }

  // ---------------------------------------------------------------------
  // delete / removeNode / inorderSuccessor
  // ---------------------------------------------------------------------

  /** The key of the leftmost node, which `inorderSuccessor` walks to. */
  function LeftmostKey(t: BinTree): int
    requires t.Branch?
  {
    if t.left == Empty then t.key else LeftmostKey(t.left)
  }

  /**
   * `delete(k, t)`: the search for k follows the same path as `find`; the
   * first node on it holding k is removed by `RemoveRoot`. Whatever the
   * order of the keys, at most one node disappears.
   */
  function Delete(k: int, t: BinTree): BinTree
    decreases t, 1
  {
    match t
    case Empty => Empty
    case Branch(l, d, rt) =>
      if d == k then RemoveRoot(t)
      else if k > d then Branch(l, d, Delete(k, rt))
      else Branch(Delete(k, l), d, rt)
  }

  /**
   * `removeNode`: a node with two children takes the leftmost key of its
   * right subtree, which is then deleted from that subtree; otherwise the
   * node is replaced by its left child if it has one, else by its right.
   */
  function RemoveRoot(t: BinTree): BinTree
    requires t.Branch?
    decreases t, 0
  {
    if t.left != Empty && t.right != Empty then
      var m := LeftmostKey(t.right);
      Branch(t.left, m, Delete(m, t.right))
    else if t.left != Empty then t.left
    else t.right
  }

  /**
   * True when deleting k from t splices out t's own root node, so the
   * subtree returned is a different node from the one passed in.
   */
  predicate SplicesRoot(k: int, t: BinTree)
  {
    t.Branch? && t.key == k && (t.left == Empty || t.right == Empty)
  }

  // ---------------------------------------------------------------------
  // find
  // ---------------------------------------------------------------------

  /** Whether `find(k, t)` reaches a node holding k on its search path. */
  predicate Search(k: int, t: BinTree)
  {
    match t
    case Empty => false
    case Branch(l, d, r) =>
      d == k || (if k > d then Search(k, r) else Search(k, l))
  }

  /**
   * The subtree `find(k, t)` returns: the one rooted at the first node on
   * k's search path that holds k, or `Empty` when the path ends first.
   */
  function Found(k: int, t: BinTree): BinTree
  {
    match t
    case Empty => Empty
    case Branch(l, d, r) =>
      if d == k then t else if k > d then Found(k, r) else Found(k, l)
  }

  // ---------------------------------------------------------------------
  // Depth-first traversals
  // ---------------------------------------------------------------------

  function Inorder(t: BinTree): seq<int>
  {
    match t
    case Empty => []
    case Branch(l, k, r) => Inorder(l) + [k] + Inorder(r)
  }

  function Preorder(t: BinTree): seq<int>
  {
    match t
    case Empty => []
    case Branch(l, k, r) => [k] + Preorder(l) + Preorder(r)
  }

  function Postorder(t: BinTree): seq<int>
  {
    match t
    case Empty => []
    case Branch(l, k, r) => Postorder(l) + Postorder(r) + [k]
  }

  // ---------------------------------------------------------------------
  // Breadth-first traversal
  // ---------------------------------------------------------------------

  /** The children `levelOrder` enqueues for a node: present ones, left first. */
  function Kids(t: BinTree): seq<BinTree>
  {
    match t
    case Empty => []
    case Branch(l, _, r) =>
      (if l == Empty then [] else [l]) + (if r == Empty then [] else [r])
  }

  function ForestSize(f: seq<BinTree>): nat
  {
    if f == [] then 0 else Size(f[0]) + ForestSize(f[1..])
  }

  /** Enqueueing a node's children accounts for every node below it. */
  lemma KidsSize(t: BinTree)
    requires t.Branch?
    ensures ForestSize(Kids(t)) == Size(t) - 1
  {
    var l, r := t.left, t.right;
    assert ForestSize([r]) == Size(r);
    if l != Empty && r != Empty {
      assert [l, r][1..] == [r];
    }
  }

  lemma {:induction false} ForestSizeAppend(a: seq<BinTree>, b: seq<BinTree>)
    ensures ForestSize(a + b) == ForestSize(a) + ForestSize(b)
    decreases |a|
  {
    if a == [] {
      assert a + b == b;
    } else {
      assert (a + b)[1..] == a[1..] + b;
      ForestSizeAppend(a[1..], b);
    }
  }

  /**
   * The keys `levelOrder`'s loop emits from a queue holding the given
   * subtrees: take the head, emit its key, append its children.
   */
  function Bfs(queue: seq<BinTree>): seq<int>
    decreases ForestSize(queue), |queue|
  {
    if queue == [] then []
    else
      match queue[0]
      case Empty => Bfs(queue[1..])
      case Branch(l, k, r) =>
        KidsSize(queue[0]);
        ForestSizeAppend(queue[1..], Kids(queue[0]));
        [k] + Bfs(queue[1..] + Kids(queue[0]))
  }

  /** One step of the queue loop: the head's key, then the rest with its children appended. */
  lemma BfsStep(queue: seq<BinTree>)
    requires queue != [] && queue[0].Branch?
    ensures Bfs(queue) == [queue[0].key] + Bfs(queue[1..] + Kids(queue[0]))
    ensures ForestSize(queue[1..] + Kids(queue[0])) < ForestSize(queue)
  {
    KidsSize(queue[0]);
    ForestSizeAppend(queue[1..], Kids(queue[0]));
  }

  function LevelOrder(t: BinTree): seq<int>
  {
    Bfs([t])
  }

  /** The keys at depth d of t (the root has depth 0), left to right. */
  function Level(t: BinTree, d: nat): seq<int>
  {
    match t
    case Empty => []
    case Branch(l, k, r) => if d == 0 then [k] else Level(l, d - 1) + Level(r, d - 1)
  }

  /** Levels d, d+1, ..., d+n-1 of t, one after the other. */
  function LevelsFrom(t: BinTree, d: nat, n: nat): seq<int>
    decreases n
  {
    if n == 0 then [] else Level(t, d) + LevelsFrom(t, d + 1, n - 1)
  }
}
